=== FILE: README.md ===
# IIIF Authentication 0.9 client negotiation, modelled in Dafny

This project models the browser-side client of the IIIF Authentication API 0.9
found in `demo-auth/iiif-auth-092.1.js`. The client opens an image without
credentials and reads its `info.json`. From that document it discovers the
login service and the token and logout services nested inside it. It offers
a login button, opens the login service in a separate window and polls until
that window closes. It then loads the token service in a hidden frame and
receives the access token as a posted message. Finally it fetches `info.json`
again with an `Authorization` header. Logout, a refused token and a failed
authorized fetch lead back to the unauthenticated viewer.

The project has these parts:

- `wrappers.dfy` (`Wrappers`): `Option`, and `Completion`, which is either a
  normal result or a thrown `TypeError`.
- `js_values.dfy` (`JsValues`): JSON values and `undefined`. It also covers
  the parts of the script language the client relies on: truthiness,
  `hasOwnProperty` (which throws on `null` and on objects that shadow it),
  property and index reads, and conversion to a string. Index reads on an
  object use the decimal key, `"0"`, `"1"`, and so on.
- `auth_discovery.dfy` (`AuthDiscovery`): `find_auth_services` as the pure
  function `FindAuthServices`, built from the two loops it runs.
- `discovery_properties.dfy` (`DiscoveryProperties`): how profiles match, how
  `service` values are normalised, and what discovery returns for every
  document.
- `token_reply.dfy` (`TokenReply`): how `receive_message` classifies a token
  reply.
- `negotiation.dfy` (`Negotiation`): the flow as a state machine. The module
  variables `image_uri` and `token_service_uri` are an explicit `Session`
  record. Browser callbacks are `Event`s. The requests the client makes are
  `Output`s. `Step(session, event, now)` is one transition, and `now` is the
  clock reading used as the cache buster.
- `negotiation_properties.dfy` (`NegotiationProperties`): facts about single
  events, and invariants over every run of events.
- `scenarios.dfy` (`Scenarios`): concrete documents and messages.

The `Session` also tracks what is still outstanding in the browser:
- unauthenticated viewers that have not yet reported `open` or
  `failed-open`;
- running login-window poll timers;
- whether the message listener is registered;
- authorized fetches in flight;
- retry timers.

An event for which nothing is outstanding has no effect. For example, a
message that arrives before any listener exists is ignored. Each button in the
auth box carries the click handlers bound to it. `$('#authbutton').bind(...)`
binds to the first element with that id, so a second login offer adds its
handler to the oldest button. `RepeatedLoginOfferStacksHandlers` states what
follows from this.

Behaviour of the code that a reader might not expect:
- The token URI comes from the last nested token entry, not the first. The
  nested scan never breaks.
- A lone `service` object without `@id` is indexed like an array. It yields
  entries when it owns the keys `"0"`, `"1"`, and so on.
- The code keeps no token in its state. It never removes the message
  listener. It has no attempt identifiers and no timeout on the token
  exchange.
- A new login attempt does not cancel earlier poll timers.
- `handle_open` is also bound to `failed-open`. The model lets every
  opening viewer report through `ViewerOpened`, whichever event name the
  viewer library raises.
- An authorized `info.json` that makes discovery throw, such as
  `{"service": null}`, is a dead end. `make_authorized_viewer_got_info` stops
  before it adds a button or builds a viewer. The exception is not passed to
  `authorization_failure`, so no retry is scheduled. The auth box was already
  emptied. When no other viewer, poll timer or retry timer is outstanding,
  only a new `make_viewer` call from the page or another message to the
  listener can move the client on.
  `Scenarios.ThrowingAuthorizedInfoIsDeadEnd` states this.
- `handle_open` can run after the user has logged in. When the page called
  `make_viewer` twice, the second viewer may report opening after the
  authorized document added its logout button. `$('#authbutton')` then binds
  `do_auth` to that logout button, and a click on it opens the logout service
  as the login window. `Scenarios.StaleViewerOpensLogoutAsLogin` exhibits
  such a run.

`Negotiation.Step` is the dispatcher that the run-level lemmas are stated
over. `Negotiation.RunHandler` and `AuthDiscovery.VisitNested` are helpers.
Their behaviour is stated by the rows for `Negotiation.RunHandlers` and
`AuthDiscovery.ScanNested`.

`MakeViewer`, `RequestAccessToken`, `MakeAuthorizedViewer`, `OnMessage` and
`AuthorizationFailure` in `Negotiation` are the bodies of the corresponding
functions of the client. What they do is stated by lemmas over `Step`:
`FreshViewerOffersOneButton`, `MakeViewerWithoutArgumentKeepsImage`,
`ClosedWindowRequestsTokenOnce`, `GrantedTokenIsPresented`,
`RefusalReopensViewer` and `FailureSchedulesOneRetry`.

## Model

| member | source | states |
|---|---|---|
| AuthDiscovery.LoopEntries | demo-auth/iiif-auth-092.1.js:107 | the loop visits exactly the values `services[start]`, `services[start+1]`, … up to but not including the first falsy one |
| AuthDiscovery.ServiceList | demo-auth/iiif-auth-092.1.js:100-106 | a `service` value that owns `@id` is a one-element list; any other value is indexed and scanned to its first falsy element; a `null` value throws |
| DiscoveryProperties.ArrayServiceIsTruthyPrefix | demo-auth/iiif-auth-092.1.js:104-107 | an array `service` yields its elements up to the first falsy element |
| DiscoveryProperties.LoneObjectWithoutIdYieldsNoEntries | demo-auth/iiif-auth-092.1.js:100-107 | a lone object without `@id` (and without a `"0"` key) yields no entries |
| DiscoveryProperties.ObjectWithIndexKeyIsScanned | demo-auth/iiif-auth-092.1.js:103-107 | a lone object without `@id` but with a truthy `"0"` key is scanned like an array, starting with that property |
| DiscoveryProperties.InlineServiceMatchesSingletonArray | demo-auth/iiif-auth-092.1.js:100-106 | a single inline service object and a one-element array holding it give the same discovery result |
| DiscoveryProperties.ProfileMatches | demo-auth/iiif-auth-092.1.js:108 | under loose `==`, a value matches a profile URI exactly when it is that string or a one-element array whose element matches |
| DiscoveryProperties.ArrayProfile | demo-auth/iiif-auth-092.1.js:133 | an array matches a profile URI exactly when it has a single matching element; no join of two or more elements and no number, boolean, `null` or object spells a URI |
| AuthDiscovery.ProfilesExclusive | demo-auth/iiif-auth-092.1.js:133-136 | no value matches two different profiles, so the token test shadows nothing in the logout test |
| AuthDiscovery.FirstLogin | demo-auth/iiif-auth-092.1.js:107-117 | the login scan stops at the first entry with the login profile; none before it matches |
| AuthDiscovery.ScanNested | demo-auth/iiif-auth-092.1.js:132-143 | after the nested scan, `token` and `logout` are the `@id`s of the last entries of their profiles, and `logoutLabel` is the label of the last labelled logout entry; login fields are untouched; the scan throws exactly when a logout entry shadows `hasOwnProperty` |
| AuthDiscovery.FromLoginEntry | demo-auth/iiif-auth-092.1.js:109-149 | the login label is the entry's label or "Login"; a login is returned only together with a token, and then it is the entry's `@id` |
| AuthDiscovery.FindAuthServices | demo-auth/iiif-auth-092.1.js:94-152 | the result never has `login` without `token`; a document without `service` yields the defaults |
| DiscoveryProperties.NoServiceYieldsDefaults | demo-auth/iiif-auth-092.1.js:96-99 | without `service` the result is exactly `{login_label: "Login", logout_label: "Logout"}` |
| DiscoveryProperties.NoLoginEntryYieldsDefaults | demo-auth/iiif-auth-092.1.js:118-122 | without a login entry the defaults are returned and no token or logout is looked for |
| DiscoveryProperties.FirstLoginEntryDecides | demo-auth/iiif-auth-092.1.js:107-122 | the result depends only on the first login entry; top-level token and logout entries are ignored |
| DiscoveryProperties.LoginEntryMeaning | demo-auth/iiif-auth-092.1.js:109-149 | what a login entry yields, stated without the scan: when it throws, and the value of every result field in terms of the last matching nested entries |
| DiscoveryProperties.LoginWithdrawnWithoutToken | demo-auth/iiif-auth-092.1.js:145-149 | a login entry without a nested token entry yields no `login` and no `token`, but keeps its label |
| DiscoveryProperties.TokenLogoutOrderIrrelevant | demo-auth/iiif-auth-092.1.js:132-143 | a nested token entry and logout entry give the same result in either order |
| TokenReply.ReceiveMessage | demo-auth/iiif-auth-092.1.js:198-215 | a payload with `accessToken` is granted with exactly that token; otherwise it is refused with `description` or "no description in response"; a `null` payload throws |
| Negotiation.AppendButton | demo-auth/iiif-auth-092.1.js:76-77 | a new button is appended and the handler is bound to the first button in the box; every earlier button keeps its `data-login` and caption |
| Negotiation.HandleOpen | demo-auth/iiif-auth-092.1.js:70-82 | a login button is added exactly when discovery finds a login; only then is `token_service_uri` set, to the discovered token; the buttons already there keep their `data-login` and caption |
| Negotiation.RunHandlers | demo-auth/iiif-auth-092.1.js:162-176 | a click opens one login window and starts one poll timer per bound `do_auth`, touches neither the token service URI nor the listener, and requests nothing else but the unauthenticated viewer |
| Negotiation.GotInfo | demo-auth/iiif-auth-092.1.js:242-263 | a logout button is added exactly when discovery on the authorized document finds a logout, and otherwise the session is unchanged; the buttons already there keep their `data-login` and caption; the authorized document is then shown |
| Negotiation.Step | demo-auth/iiif-auth-092.1.js:41-278 | an event for which nothing is outstanding (no viewer opening, no such button, no running poll timer seeing the window closed, no listener, no fetch in flight, no retry timer) changes nothing and requests nothing; until the auth box is cleared, every button keeps its `data-login` and caption |
| NegotiationProperties.ClosedWindowRequestsTokenOnce | demo-auth/iiif-auth-092.1.js:169-190 | a poll that sees the window closed stops its timer, registers the listener and requests a token exactly once, at `token_service_uri + '?messageId=1234'` |
| NegotiationProperties.OpenWindowRequestsNothing | demo-auth/iiif-auth-092.1.js:169-170 | a poll that sees the window open does nothing |
| NegotiationProperties.MessagesIgnoredUntilTokenRequested | demo-auth/iiif-auth-092.1.js:184-186 | messages before the first token request are not handled |
| NegotiationProperties.GrantedTokenIsPresented | demo-auth/iiif-auth-092.1.js:201-231 | a message with `accessToken` clears the auth box and leads to exactly one authorized fetch of `image_uri + "/info.json"` carrying that token, and never to the unauthenticated viewer |
| NegotiationProperties.RefusalReopensViewer | demo-auth/iiif-auth-092.1.js:205-214 | a message without `accessToken` reports its description or the literal fallback and reopens the unauthenticated viewer on the stored image |
| NegotiationProperties.FailureSchedulesOneRetry | demo-auth/iiif-auth-092.1.js:271-278 | an authorization failure schedules one retry after 3000 ms and reopens nothing itself |
| NegotiationProperties.RetryReopensViewerOnce | demo-auth/iiif-auth-092.1.js:274-277 | a retry timer reopens the unauthenticated viewer once, on the stored image: the timer is gone, the auth box is emptied and the new viewer is registered as opening; nothing else changes |
| NegotiationProperties.FreshViewerOffersOneButton | demo-auth/iiif-auth-092.1.js:41-82 | after `make_viewer`, a viewer that offers a login leaves exactly the new login button in the auth box, whatever it held before, and stashes the offered token service |
| NegotiationProperties.MakeViewerWithoutArgumentKeepsImage | demo-auth/iiif-auth-092.1.js:41-44 | `make_viewer()` without an argument keeps the stored `image_uri` |
| NegotiationProperties.LogoutClickOnlyReopensViewer | demo-auth/iiif-auth-092.1.js:246-252 | clicking a button that carries only the logout handler reopens the unauthenticated viewer once per bound handler: the auth box is emptied, each viewer is registered as opening, and the only outputs are `OpenViewer` on the stored image; no window is opened and nothing is requested from the logout service |
| NegotiationProperties.ReopenHandlers | demo-auth/iiif-auth-092.1.js:249-252 | running only logout handlers calls `make_viewer()` once per handler: the auth box ends empty, one viewer per handler is registered as opening on the unchanged stored image, and the outputs are exactly those `OpenViewer`s |
| NegotiationProperties.TokenServiceChangesOnlyWithLoginOffer | demo-auth/iiif-auth-092.1.js:74-78 | `token_service_uri` changes only in a step that adds a login button, and then to the discovered token |
| NegotiationProperties.RepeatedLoginOfferStacksHandlers | demo-auth/iiif-auth-092.1.js:76-77 | two login offers bind `do_auth` twice to the first button, and one click then starts two poll timers |
| NegotiationProperties.PollAccounting | demo-auth/iiif-auth-092.1.js:168-175 | over any run, token requests plus running poll timers equal the timers at the start plus the login windows opened |
| NegotiationProperties.TokenRequestsBoundedByLoginWindows | demo-auth/iiif-auth-092.1.js:162-190 | from page load, token requests never outnumber login windows opened |
| NegotiationProperties.FetchAccounting | demo-auth/iiif-auth-092.1.js:226-230 | over any run, authorized views shown plus failures reported never exceed the authorized fetches issued |
| NegotiationProperties.FetchesPresentGrantedTokens | demo-auth/iiif-auth-092.1.js:201-227 | over any run, every authorized fetch presents a token that a message of that run granted |
| NegotiationProperties.RequestsTargetStoredImage | demo-auth/iiif-auth-092.1.js:42-54 | unless the page names a new image, `image_uri` stays the same and every info request targets it |
| NegotiationProperties.ListenerFollowsTokenRequest | demo-auth/iiif-auth-092.1.js:184-186 | the message listener is never removed, and it exists only after a token request |
| NegotiationProperties.StepPollAccounting | demo-auth/iiif-auth-092.1.js:169-175 | in one step, token requests plus running poll timers equal the timers before plus the login windows opened |
| NegotiationProperties.StepFetchAccounting | demo-auth/iiif-auth-092.1.js:226-230 | in one step, authorized views and failures never exceed the fetches in flight plus those issued |
| NegotiationProperties.StepFetchNeedsGrant | demo-auth/iiif-auth-092.1.js:201-227 | an authorized fetch is issued only on a message granting the token it presents, and targets the stored image |
| NegotiationProperties.StepKeepsImage | demo-auth/iiif-auth-092.1.js:42-54 | any step except the page naming an image keeps `image_uri`, and its info requests target it |
| Scenarios.EmptyDocument | demo-auth/iiif-auth-092.1.js:96-99 | `{}` yields only the default labels |
| Scenarios.RefusedWithDescription | demo-auth/iiif-auth-092.1.js:205-213 | `{description: "expired"}` is refused with "expired" and the viewer reopens |
| Scenarios.NullMessageChangesNothing | demo-auth/iiif-auth-092.1.js:199-201 | a `null` payload makes the handler throw, and nothing changes |
| Scenarios.LoginWithToken | demo-auth/iiif-auth-092.1.js:94-152 | a login entry with a nested token gives `{login: "L", login_label: "Sign In", token: "T", logout_label: "Logout"}` |
| Scenarios.LoginWithoutToken | demo-auth/iiif-auth-092.1.js:145-149 | without the nested token the same entry gives only the labels |
| Scenarios.ArrayWrappedProfileMatches | demo-auth/iiif-auth-092.1.js:108 | `["http://iiif.io/api/auth/0/login"]` matches the login profile |
| Scenarios.LoginWithLogout | demo-auth/iiif-auth-092.1.js:132-149 | a login entry whose only nested service is a logout yields the logout and its label, but no login |
| Scenarios.ThrowingAuthorizedInfoIsDeadEnd | demo-auth/iiif-auth-092.1.js:242-248 | an authorized document `{"service": null}` consumes the pending fetch and emits nothing; when no other viewer, poll timer or retry timer is outstanding, afterwards no event has an effect except a new `make_viewer` call or another message to the registered listener: no button, no viewer, no poll or retry timer, no fetch |
| Scenarios.StaleViewerOpensLogoutAsLogin | demo-auth/iiif-auth-092.1.js:72-77 | a run from page load in which a stale viewer's `handle_open` binds `do_auth` to the logout button, so that a click opens the logout address as the login window |

## Left out

- NegotiationProperties.LogoutClickOnlyReopensViewer: holds only for a button
  that carries nothing but the logout handler. A logout button that a stale
  `handle_open` has also bound `do_auth` to opens the logout address as the
  login window, as `Scenarios.StaleViewerOpensLogoutAsLogin` shows.
- The log window and its line counter. They are output only. Besides the two
  failure reports (`TokenRefused`, `ScheduleRetry`), no log line is modelled.
- Button HTML. The `data-login` attribute and the caption are modelled as the
  string conversions of the discovered values. HTML parsing and escaping of
  those strings is not modelled.
- OpenSeadragon is modelled only through the `OpenViewer` and
  `ShowAuthorizedViewer` outputs and the `ViewerOpened` event. The event
  carries the document that discovery sees. How the viewer turns `info.json`
  into its event source is not modelled.
- Time. `new Date().getTime()` is the `now` parameter of a step. Poll and
  retry timers firing are events. The 500 ms and 3000 ms delays are recorded
  in the outputs, but elapsed time is not modelled.
- `window.open` returning `null` when a popup is blocked is not modelled.
  `PollTimerFired` assumes a window exists. The browser's reuse of the window
  named `loginwindow` is not modelled either; the name is only recorded in the
  output.
- jQuery's own cache-busting parameter for `cache: false`. `FetchInfo`
  records the URL the client passes.
- The origin of a message. The client does not check it, and any message
  reaches the handler. Payloads are JSON values; an `undefined` payload is
  not modelled.
- JSON numbers are integers here. Fractions and exponents are not modelled.
  They would change the string conversion of a number. That conversion
  never spells a profile URI, but it feeds the button `data-login` and
  caption and the token frame URL. `IntToString` agrees with JavaScript only
  for integers below 1e21 in magnitude: JavaScript prints larger ones in
  exponent form, such as `1e+21`, and numbers beyond 2^53 are not exact
  there.
- Objects with their own `toString` or `valueOf` keys are not modelled. Such
  keys would change or break loose `==` and string conversion. Every object
  converts to `"[object Object]"`.
- Strings are sequences of characters, not UTF-16 code units. This matters
  only when a string is indexed as a `service` list.
- The implicit globals `login` and `services` are modelled as locals. No
  value of theirs survives from one call to another in a way that changes
  behaviour.
- `tests/test_flask_utils.py` and `tests/test_manipulator.py` are not part of
  this model. They test the Python image server, not the client modelled
  here.

=== FILE: auth_discovery.dfy ===
/** Discovery of the IIIF Authentication API 0.9 services that an image
    information document (info.json) advertises: the login service, and
    the token and logout services nested inside it. */
module AuthDiscovery {
  import opened Wrappers
  import opened JsValues

  /** The service profiles of the IIIF Authentication API 0.9. */
  datatype Profile = Login | Token | Logout {
    function Uri(): string {
      match this
      case Login => "http://iiif.io/api/auth/0/login"
      case Token => "http://iiif.io/api/auth/0/token"
      case Logout => "http://iiif.io/api/auth/0/logout"
    }
  }

  /** `v == p.Uri()` under the loose equality the client uses. A string
      is compared as is; an array or object is first converted to a
      string; `null`, `undefined` and a string never loosely equal each
      other; a boolean or number is compared numerically, and no profile
      URI spells a number. */
  predicate ProfileIs(v: JsValue, p: Profile) {
    match v
    case Undefined => false
    case Defined(j) =>
      match j
      case JNull => false
      case JBool(_) => false
      case JNum(_) => false
      case JStr(s) => s == p.Uri()
      case JArr(_) => JsonToString(j) == p.Uri()
      case JObj(_) => JsonToString(j) == p.Uri()
  }

  /** `entry['profile'] == p.Uri()`. */
  predicate HasProfile(entry: Json, p: Profile) {
    ProfileIs(Get(entry, "profile"), p)
  }

  const DefaultLoginLabel: string := "Login"
  const DefaultLogoutLabel: string := "Logout"

  /** The object `find_auth_services` returns. A property the object does
      not carry is `None`; a carried property may still hold `undefined`
      (an entry without "@id"). Labels are whatever the entries' "label"
      holds. */
  datatype AuthServices = AuthServices(
    login: Option<JsValue>,
    loginLabel: Json,
    token: Option<JsValue>,
    logout: Option<JsValue>,
    logoutLabel: Json)

  /** The result object before any service is found. */
  function Defaults(): AuthServices {
    AuthServices(None, JStr(DefaultLoginLabel), None, None, JStr(DefaultLogoutLabel))
  }

  /** `entry['label']` when the entry owns it, the default otherwise. */
  function LabelOr(entry: Json, default: string): Json {
    if entry.JObj? && "label" in entry.fields then entry.fields["label"] else JStr(default)
  }

  /** The entries `for (var service, i = start; service = services[i]; i++)`
      visits: every index from `start` up to, not including, the first
      index whose value is falsy. */
  function LoopEntries(services: Json, start: nat): (r: seq<Json>)
    requires forall j | 0 <= j < start :: Truthy(IndexAt(services, j))
    ensures forall k | 0 <= k < |r| ::
      IndexAt(services, start + k) == Defined(r[k]) && Truthy(Defined(r[k]))
    ensures !Truthy(IndexAt(services, start + |r|))
    decreases IndexBound(services) - start
  {
    var current := IndexAt(services, start);
    if Truthy(current) then
      IndicesBounded(services, start + 1);
      [current.json] + LoopEntries(services, start + 1)
    else
      []
  }

  /** The normalisation of a `service` value: one that owns "@id" is a
      single entry; anything else is indexed as an array and scanned up to
      its first falsy element. Asking a `null` value for "@id" throws. */
  function ServiceList(service: Json): (r: Completion<seq<Json>>)
    ensures r.Normal? <==> CanCallHasOwn(service)
    ensures r.Normal? && service.JObj? && "@id" in service.fields ==> r.value == [service]
    ensures r.Normal? && !(service.JObj? && "@id" in service.fields) ==>
      (forall k | 0 <= k < |r.value| ::
         IndexAt(service, k) == Defined(r.value[k]) && Truthy(Defined(r.value[k])))
      && !Truthy(IndexAt(service, |r.value|))
  {
    var single :- HasOwn(service, "@id");
    Normal(if single then [service] else LoopEntries(service, 0))
  }

  /** The index at which the scan for the login service stops: the first
      entry with the login profile. */
  function FirstLogin(entries: seq<Json>): (r: Option<nat>)
    ensures r.Some? ==>
      r.value < |entries| && HasProfile(entries[r.value], Login)
      && forall j | 0 <= j < r.value :: !HasProfile(entries[j], Login)
    ensures r.None? ==> forall j | 0 <= j < |entries| :: !HasProfile(entries[j], Login)
  {
    if entries == [] then None
    else if HasProfile(entries[0], Login) then Some(0)
    else
      match FirstLogin(entries[1..])
      case None => None
      case Some(k) => Some(k + 1)
  }

  /** The last index whose entry satisfies `f`; a reference definition for
      the "last match wins" behaviour of a scan that never breaks. */
  function LastWhere(entries: seq<Json>, f: Json -> bool): (r: Option<nat>)
    ensures r.Some? ==>
      r.value < |entries| && f(entries[r.value])
      && forall j | r.value < j < |entries| :: !f(entries[j])
    ensures r.None? ==> forall j | 0 <= j < |entries| :: !f(entries[j])
  {
    if entries == [] then None
    else if f(entries[|entries| - 1]) then Some(|entries| - 1)
    else LastWhere(entries[..|entries| - 1], f)
  }

  predicate IsLabelledLogout(entry: Json) {
    entry.JObj? && HasProfile(entry, Logout) && "label" in entry.fields
  }

  /** The "@id" of the last entry satisfying `f`, or `otherwise` if there
      is none. */
  function LastIdOr(entries: seq<Json>, f: Json -> bool, otherwise: Option<JsValue>): Option<JsValue> {
    match LastWhere(entries, f)
    case None => otherwise
    case Some(k) => Some(Get(entries[k], "@id"))
  }

  /** The label of the last labelled logout entry, or `otherwise`. */
  function LastLogoutLabelOr(entries: seq<Json>, otherwise: Json): Json {
    match LastWhere(entries, IsLabelledLogout)
    case None => otherwise
    case Some(k) => entries[k].fields["label"]
  }

  /** One iteration of the scan of the login service's nested entries: a
      token entry sets `token`; otherwise a logout entry sets `logout` and,
      when it owns a label, `logoutLabel`. */
  function VisitNested(svc: AuthServices, entry: Json): Completion<AuthServices> {
    if HasProfile(entry, Token) then
      Normal(svc.(token := Some(Get(entry, "@id"))))
    else if HasProfile(entry, Logout) then
      var labelled :- HasOwn(entry, "label");
      Normal(svc.(logout := Some(Get(entry, "@id")),
                  logoutLabel := if labelled then entry.fields["label"] else svc.logoutLabel))
    else
      Normal(svc)
  }

  /** Two different profiles never match the same value. */
  lemma ProfilesExclusive(v: JsValue, p: Profile, q: Profile)
    requires p != q
    ensures !(ProfileIs(v, p) && ProfileIs(v, q))
  {
    assert p.Uri() != q.Uri() by {
      assert |p.Uri()| != |q.Uri()| || p.Uri()[26] != q.Uri()[26];
    }
  }

  /** The state of the nested scan after visiting every entry of
      `entries`, in order. The scan never breaks, so the last token entry
      and the last logout entry win; a logout entry that shadows
      `hasOwnProperty` throws. */
  function ScanNested(svc: AuthServices, entries: seq<Json>): (r: Completion<AuthServices>)
    ensures r.Normal? <==>
      forall j | 0 <= j < |entries| :: HasProfile(entries[j], Logout) ==> CanCallHasOwn(entries[j])
    ensures r.Normal? ==> r.value.login == svc.login && r.value.loginLabel == svc.loginLabel
    ensures r.Normal? ==>
      r.value.token == LastIdOr(entries, e => HasProfile(e, Token), svc.token)
    ensures r.Normal? ==>
      r.value.logout == LastIdOr(entries, e => HasProfile(e, Logout), svc.logout)
    ensures r.Normal? ==>
      r.value.logoutLabel == LastLogoutLabelOr(entries, svc.logoutLabel)
  {
    if entries == [] then Normal(svc)
    else
      var last := entries[|entries| - 1];
      ProfilesExclusive(Get(last, "profile"), Token, Logout);
      var before :- ScanNested(svc, entries[..|entries| - 1]);
      VisitNested(before, last)
  }

  /** What the scan finds once the login entry is known: its "@id" and
      label, then the token and logout services among its own nested
      services. Without a token service the login is withdrawn. */
  function FromLoginEntry(entry: Json): (r: Completion<AuthServices>)
    ensures r.Normal? ==> r.value.loginLabel == LabelOr(entry, DefaultLoginLabel)
    ensures r.Normal? && r.value.login.Some? ==>
      r.value.token.Some? && r.value.login == Some(Get(entry, "@id"))
  {
    var labelled :- HasOwn(entry, "label");
    var found := Defaults().(
      login := Some(Get(entry, "@id")),
      loginLabel := if labelled then entry.fields["label"] else JStr(DefaultLoginLabel));
    // The entry has just answered `hasOwnProperty`, so asking again
    // about "service" cannot throw.
    var hasNested := entry.JObj? && "service" in entry.fields;
    var scanned :-
      if hasNested then
        (var nested :- ServiceList(entry.fields["service"]); ScanNested(found, nested))
      else Normal(found);
    Normal(if scanned.token.None? then scanned.(login := None) else scanned)
  }

  /** `find_auth_services(info)`. */
  function FindAuthServices(info: Json): (r: Completion<AuthServices>)
    ensures r.Normal? && r.value.login.Some? ==> r.value.token.Some?
    ensures HasOwn(info, "service") == Normal(false) ==> r == Normal(Defaults())
  {
    var hasService :- HasOwn(info, "service");
    if !hasService then Normal(Defaults())
    else
      var entries :- ServiceList(info.fields["service"]);
      match FirstLogin(entries)
      case None => Normal(Defaults())
      case Some(k) => FromLoginEntry(entries[k])
  }
}

=== FILE: discovery_properties.dfy ===
/** Properties of service discovery: how profiles match, how `service`
    values are normalised, and what `FindAuthServices` returns for every
    document. */
module DiscoveryProperties {
  import opened Wrappers
  import opened JsValues
  import opened AuthDiscovery

  /** No profile URI contains a comma, and each starts with 'h'. */
  lemma UriShape(p: Profile)
    ensures |p.Uri()| > 0 && p.Uri()[0] == 'h'
    ensures forall k | 0 <= k < |p.Uri()| :: p.Uri()[k] != ','
  {
  }

  /** An array matches a profile exactly when it has one element and that
      element matches: the join of two or more elements contains a comma,
      and neither `null`, a number, a boolean nor an object prints as a
      profile URI. */
  lemma {:induction false} ArrayProfile(items: seq<Json>, p: Profile)
    ensures ProfileIs(Defined(JArr(items)), p) <==> |items| == 1 && ProfileIs(Defined(items[0]), p)
  {
    UriShape(p);
    var joined := Join(items);
    assert JsonToString(JArr(items)) == joined;
    if |items| == 0 {
      assert joined == "";
    } else if |items| == 1 {
      var x := items[0];
      assert joined == JoinElement(x);
      assert !x.JNull? ==> joined == JsonToString(x);
      match x
      case JNull =>
        assert joined == "";
      case JBool(b) =>
        assert joined[0] == 't' || joined[0] == 'f';
      case JNum(n) =>
        assert joined == IntToString(n);
      case JStr(_) =>
      case JArr(_) =>
      case JObj(_) =>
        assert joined[0] == '[';
    } else {
      var head := JoinElement(items[0]);
      assert joined == head + "," + Join(items[1..]);
      assert joined[|head|] == ',';
    }
  }

  /** The values that match a profile: the URI itself, or an array whose
      only element matches (so `["http://iiif.io/api/auth/0/login"]`
      matches the login profile). */
  lemma {:induction false} ProfileMatches(j: Json, p: Profile)
    ensures ProfileIs(Defined(j), p) <==>
      j == JStr(p.Uri()) || (j.JArr? && |j.items| == 1 && ProfileIs(Defined(j.items[0]), p))
  {
    UriShape(p);
    match j
    case JArr(items) =>
      ArrayProfile(items, p);
    case JObj(_) =>
      assert JsonToString(j)[0] == '[';
    case _ =>
  }

  /** The entries the loop visits in an array: its elements up to the
      first falsy one. */
  function TakeTruthy(items: seq<Json>): seq<Json> {
    if items == [] || !Truthy(Defined(items[0])) then []
    else [items[0]] + TakeTruthy(items[1..])
  }

  lemma {:induction false} ArrayLoopEntries(items: seq<Json>, start: nat)
    requires start <= |items|
    requires forall j | 0 <= j < start :: Truthy(IndexAt(JArr(items), j))
    ensures LoopEntries(JArr(items), start) == TakeTruthy(items[start..])
    decreases |items| - start
  {
    if start < |items| && Truthy(Defined(items[start])) {
      assert IndexAt(JArr(items), start) == Defined(items[start]);
      ArrayLoopEntries(items, start + 1);
      assert items[start..][1..] == items[start + 1..];
    }
  }

  /** An array `service` value is scanned up to its first falsy element. */
  lemma ArrayServiceIsTruthyPrefix(items: seq<Json>)
    ensures ServiceList(JArr(items)) == Normal(TakeTruthy(items))
  {
    ArrayLoopEntries(items, 0);
  }

  /** A lone object without "@id" yields no entries unless it happens to
      own the key "0": the loop reads `service[0]`, which is `undefined`. */
  lemma LoneObjectWithoutIdYieldsNoEntries(fields: map<string, Json>)
    requires "hasOwnProperty" !in fields && "@id" !in fields && "0" !in fields
    ensures ServiceList(JObj(fields)) == Normal([])
  {
    assert NatToString(0) == "0";
    assert IndexAt(JObj(fields), 0) == Undefined;
  }

  /** An object without "@id" but with a truthy "0" key is indexed like an
      array: its "0" property is the first entry. */
  lemma ObjectWithIndexKeyIsScanned(fields: map<string, Json>)
    requires "hasOwnProperty" !in fields && "@id" !in fields
    requires "0" in fields && Truthy(Defined(fields["0"]))
    ensures ServiceList(JObj(fields)).Normal?
    ensures |ServiceList(JObj(fields)).value| >= 1
    ensures ServiceList(JObj(fields)).value[0] == fields["0"]
  {
    assert NatToString(0) == "0";
    assert IndexAt(JObj(fields), 0) == Defined(fields["0"]);
  }

  /** A single inline service object and a one-element array holding it
      give the same discovery result. */
  lemma InlineServiceMatchesSingletonArray(info: map<string, Json>, entry: map<string, Json>)
    requires "hasOwnProperty" !in info && "hasOwnProperty" !in entry && "@id" in entry
    ensures FindAuthServices(JObj(info["service" := JObj(entry)]))
         == FindAuthServices(JObj(info["service" := JArr([JObj(entry)])]))
  {
    ArrayServiceIsTruthyPrefix([JObj(entry)]);
    assert TakeTruthy([JObj(entry)]) == [JObj(entry)];
  }

  /** A document without a `service` property advertises nothing: the
      result is the default labels and no login, token or logout. */
  lemma NoServiceYieldsDefaults(info: Json)
    requires CanCallHasOwn(info) && !(info.JObj? && "service" in info.fields)
    ensures FindAuthServices(info) == Normal(Defaults())
    ensures Defaults().login.None? && Defaults().token.None? && Defaults().logout.None?
    ensures Defaults().loginLabel == JStr("Login") && Defaults().logoutLabel == JStr("Logout")
  {
  }

  /** Without a login entry among the top-level entries the result is the
      defaults: no token or logout is looked for. */
  lemma NoLoginEntryYieldsDefaults(info: map<string, Json>, entries: seq<Json>)
    requires "hasOwnProperty" !in info && "service" in info
    requires ServiceList(info["service"]) == Normal(entries)
    requires forall j | 0 <= j < |entries| :: !HasProfile(entries[j], Login)
    ensures FindAuthServices(JObj(info)) == Normal(Defaults())
  {
    assert FirstLogin(entries) == None;
  }

  /** The first login entry alone decides the result: every other
      top-level entry, token and logout entries included, is ignored. */
  lemma FirstLoginEntryDecides(info: map<string, Json>, entries: seq<Json>, k: nat)
    requires "hasOwnProperty" !in info && "service" in info
    requires ServiceList(info["service"]) == Normal(entries)
    requires k < |entries| && HasProfile(entries[k], Login)
    requires forall j | 0 <= j < k :: !HasProfile(entries[j], Login)
    ensures FindAuthServices(JObj(info)) == FromLoginEntry(entries[k])
  {
    assert FirstLogin(entries) == Some(k);
  }

  /** The nested entries of a login entry: its normalised own `service`,
      or none. */
  function NestedEntries(entry: Json): Completion<seq<Json>> {
    if entry.JObj? && "service" in entry.fields then ServiceList(entry.fields["service"])
    else Normal([])
  }

  /** What a login entry yields, stated without the scan:
      - it throws exactly when the entry, its `service` value or one of
        its nested logout entries cannot answer `hasOwnProperty`;
      - `login` is the entry's "@id" when a nested token entry exists and
        absent otherwise, while `loginLabel` is the entry's label either way;
      - `token` and `logout` come from the last nested entry of each
        profile, and `logoutLabel` from the last labelled logout entry. */
  lemma {:induction false} LoginEntryMeaning(entry: Json)
    ensures FromLoginEntry(entry).Normal? <==>
      CanCallHasOwn(entry) && NestedEntries(entry).Normal?
      && forall j | 0 <= j < |NestedEntries(entry).value| ::
           HasProfile(NestedEntries(entry).value[j], Logout) ==> CanCallHasOwn(NestedEntries(entry).value[j])
    ensures FromLoginEntry(entry).Normal? ==>
      var r, nested := FromLoginEntry(entry).value, NestedEntries(entry).value;
      && r.login == (if LastWhere(nested, e => HasProfile(e, Token)).Some? then Some(Get(entry, "@id")) else None)
      && r.loginLabel == LabelOr(entry, DefaultLoginLabel)
      && r.token == LastIdOr(nested, e => HasProfile(e, Token), None)
      && r.logout == LastIdOr(nested, e => HasProfile(e, Logout), None)
      && r.logoutLabel == LastLogoutLabelOr(nested, JStr(DefaultLogoutLabel))
  {
    if CanCallHasOwn(entry) && NestedEntries(entry).Normal? {
      var found := Defaults().(login := Some(Get(entry, "@id")), loginLabel := LabelOr(entry, DefaultLoginLabel));
      assert FromLoginEntry(entry) ==
        (var scanned :- ScanNested(found, NestedEntries(entry).value);
         Normal(if scanned.token.None? then scanned.(login := None) else scanned));
    }
  }

  /** A login entry without a nested token service yields no `login`, but
      keeps its label. */
  lemma LoginWithdrawnWithoutToken(entry: Json)
    requires FromLoginEntry(entry).Normal? && NestedEntries(entry).Normal?
    requires forall j | 0 <= j < |NestedEntries(entry).value| :: !HasProfile(NestedEntries(entry).value[j], Token)
    ensures FromLoginEntry(entry).value.login.None?
    ensures FromLoginEntry(entry).value.token.None?
    ensures FromLoginEntry(entry).value.loginLabel == LabelOr(entry, DefaultLoginLabel)
  {
    LoginEntryMeaning(entry);
    assert LastWhere(NestedEntries(entry).value, e => HasProfile(e, Token)).None?;
  }

  /** A token entry and a logout entry give the same state whichever is
      declared first. */
  lemma TokenLogoutOrderIrrelevant(svc: AuthServices, tokenEntry: Json, logoutEntry: Json)
    requires HasProfile(tokenEntry, Token) && HasProfile(logoutEntry, Logout)
    ensures ScanNested(svc, [tokenEntry, logoutEntry]) == ScanNested(svc, [logoutEntry, tokenEntry])
  {
    ProfilesExclusive(Get(logoutEntry, "profile"), Token, Logout);
    assert [tokenEntry, logoutEntry][..1] == [tokenEntry];
    assert [logoutEntry, tokenEntry][..1] == [logoutEntry];
    assert [tokenEntry][..0] == [] && [logoutEntry][..0] == [];
  }
}

=== FILE: js_values.dfy ===
/** The script values the authentication client handles: parsed JSON
    documents and message payloads, `undefined`, and the few pieces of
    the language's built-in behaviour the client relies on (truthiness,
    `hasOwnProperty`, property and index reads, string conversion). */
module JsValues {
  import opened Wrappers

  /** A value as `JSON.parse` (or a structured clone of one) produces it.
      Objects are maps because parsing keeps the last of duplicate keys
      and the client never depends on key order. Numbers are integers. */
  datatype Json =
    | JNull
    | JBool(b: bool)
    | JNum(n: int)
    | JStr(s: string)
    | JArr(items: seq<Json>)
    | JObj(fields: map<string, Json>)

  /** The result of a property or index read: `undefined` when the
      property is missing. */
  datatype JsValue = Undefined | Defined(json: Json)

  /** The value used as a condition: `undefined`, `null`, `false`, `0`
      and `""` are falsy; every array and object is truthy. */
  predicate Truthy(v: JsValue) {
    match v
    case Undefined => false
    case Defined(j) =>
      match j
      case JNull => false
      case JBool(b) => b
      case JNum(n) => n != 0
      case JStr(s) => s != ""
      case JArr(_) => true
      case JObj(_) => true
  }

  /** `v.hasOwnProperty` is callable: it is missing on `null`, and an
      object with an own "hasOwnProperty" key shadows the built-in with a
      value that is never a function. */
  predicate CanCallHasOwn(v: Json) {
    !v.JNull? && !(v.JObj? && "hasOwnProperty" in v.fields)
  }

  /** `v.hasOwnProperty(key)` for the non-index keys the client asks
      about ("service", "@id", "label", "accessToken", "description"):
      only an object can own one of them. */
  function HasOwn(v: Json, key: string): (r: Completion<bool>)
    ensures r.Normal? <==> CanCallHasOwn(v)
    ensures r == Normal(true) <==> CanCallHasOwn(v) && v.JObj? && key in v.fields
  {
    if !CanCallHasOwn(v) then ThrowTypeError
    else Normal(v.JObj? && key in v.fields)
  }

  /** `v[key]` for a non-index key on a non-null value. */
  function Get(v: Json, key: string): JsValue {
    if v.JObj? && key in v.fields then Defined(v.fields[key]) else Undefined
  }

  /** `v[i]`: an array element, a one-character string, or the object
      property whose key is the decimal spelling of `i`. */
  function IndexAt(v: Json, i: nat): JsValue {
    match v
    case JArr(items) => if i < |items| then Defined(items[i]) else Undefined
    case JStr(s) => if i < |s| then Defined(JStr([s[i]])) else Undefined
    case JObj(fields) =>
      var key := NatToString(i);
      if key in fields then Defined(fields[key]) else Undefined
    case _ => Undefined
  }

  /** How many indices `v[i]` can possibly answer. */
  function IndexBound(v: Json): nat {
    match v
    case JArr(items) => |items|
    case JStr(s) => |s|
    case JObj(fields) => |fields|
    case _ => 0
  }

  predicate IsDigit(c: char) {
    '0' <= c <= '9'
  }

  function DigitChar(d: nat): (c: char)
    requires d < 10
    ensures IsDigit(c)
  {
    "0123456789"[d]
  }

  /** The decimal spelling of a natural number, as `String(n)` gives it. */
  function NatToString(n: nat): (r: string)
    ensures |r| >= 1
    ensures forall k | 0 <= k < |r| :: IsDigit(r[k])
    ensures (|r| == 1) <==> n < 10
  {
    if n < 10 then [DigitChar(n)]
    else NatToString(n / 10) + [DigitChar(n % 10)]
  }

  /** The decimal spelling of an integer, with a leading '-' when negative. */
  function IntToString(n: int): (r: string)
    ensures |r| >= 1
    ensures r[0] == '-' || IsDigit(r[0])
  {
    if n < 0 then "-" + NatToString(-n) else NatToString(n)
  }

  /** `String(v)`, as `+` converts the other operand when one side is a
      string. An object without own "toString"/"valueOf" keys prints as
      "[object Object]"; an array prints as the join of its elements. */
  function ToJsString(v: JsValue): string {
    match v
    case Undefined => "undefined"
    case Defined(j) => JsonToString(j)
  }

  function JsonToString(j: Json): string
    decreases j, 1
  {
    match j
    case JNull => "null"
    case JBool(b) => if b then "true" else "false"
    case JNum(n) => IntToString(n)
    case JStr(s) => s
    case JArr(items) => Join(items)
    case JObj(_) => "[object Object]"
  }

  /** `items.join(",")`: `null` elements print as the empty string. */
  function Join(items: seq<Json>): string
    decreases items, 0
  {
    if items == [] then ""
    else if |items| == 1 then JoinElement(items[0])
    else JoinElement(items[0]) + "," + Join(items[1..])
  }

  function JoinElement(j: Json): string
    decreases j, 2
  {
    if j.JNull? then "" else JsonToString(j)
  }

  /** Distinct numbers have distinct decimal spellings. */
  lemma {:induction false} NatToStringInjective(a: nat, b: nat)
    requires NatToString(a) == NatToString(b)
    ensures a == b
  {
    if a >= 10 && b >= 10 {
      var sa, sb := NatToString(a), NatToString(b);
      assert sa[|sa| - 1] == DigitChar(a % 10);
      assert sb[|sb| - 1] == DigitChar(b % 10);
      assert a % 10 == b % 10;
      assert sa[..|sa| - 1] == NatToString(a / 10);
      assert sb[..|sb| - 1] == NatToString(b / 10);
      NatToStringInjective(a / 10, b / 10);
    }
  }

  /** If every key "0" .. "n-1" occurs in the map, the map has at least n
      keys. */
  lemma {:induction false} IndexKeysBounded(fields: map<string, Json>, n: nat)
    requires forall j | 0 <= j < n :: NatToString(j) in fields
    ensures n <= |fields|
  {
    if n > 0 {
      var last := NatToString(n - 1);
      var rest := fields - {last};
      forall j | 0 <= j < n - 1
        ensures NatToString(j) in rest
      {
        if NatToString(j) == last {
          NatToStringInjective(j, n - 1);
        }
      }
      IndexKeysBounded(rest, n - 1);
      assert rest.Keys == fields.Keys - {last};
      assert |rest.Keys| == |fields.Keys| - 1;
    }
  }

  /** `v[0]` .. `v[n-1]` can all be truthy only if `n` is within the
      value's index bound; this bounds every index loop. */
  lemma IndicesBounded(v: Json, n: nat)
    requires forall j | 0 <= j < n :: Truthy(IndexAt(v, j))
    ensures n <= IndexBound(v)
  {
    if n > 0 {
      assert Truthy(IndexAt(v, n - 1));
      if v.JObj? {
        forall j | 0 <= j < n
          ensures NatToString(j) in v.fields
        {
          assert Truthy(IndexAt(v, j));
        }
        IndexKeysBounded(v.fields, n);
      }
    }
  }
}

=== FILE: negotiation.dfy ===
/** The client's negotiation flow as a state machine: an unauthenticated
    viewer whose info document may offer a login button, a login window
    polled until it closes, a token requested through a hidden frame and
    delivered by message, an authorized re-fetch of the info document,
    and the logout and failure paths back to the unauthenticated viewer.
    The browser (viewer library, DOM, timers, windows, messages, HTTP) is
    reduced to the events it delivers and the requests it is asked to make. */
module Negotiation {
  import opened Wrappers
  import opened JsValues
  import opened AuthDiscovery
  import opened TokenReply

  const InfoJsonPath: string := "/info.json"
  const CacheBusterQuery: string := "?t="
  const TokenMessageQuery: string := "?messageId=1234"
  const LoginWindowName: string := "loginwindow"
  const PollIntervalMs: nat := 500
  const RetryDelayMs: nat := 3000

  /** A click handler bound to a button: `do_auth`, or the logout
      handler that only reopens the unauthenticated viewer. */
  datatype Handler = DoAuth | Reopen

  /** A button in the auth box: its `data-login` attribute, its caption,
      and the click handlers bound to it, in binding order. */
  datatype Button = Button(dataLogin: string, caption: string, handlers: seq<Handler>)

  /** The client's state: the module variables `image_uri` and
      `token_service_uri`, the buttons in the auth box, and what is
      outstanding in the browser: unauthenticated viewers that have not yet
      reported opening, login-window poll timers, whether the message
      listener is registered, authorized fetches in flight, and retry
      timers. */
  datatype Session = Session(
    imageUri: string,
    tokenServiceUri: JsValue,
    authbox: seq<Button>,
    openingViewers: nat,
    pollTimers: nat,
    listening: bool,
    pendingFetches: nat,
    retryTimers: nat)

  /** The state when the page loads. */
  function Initial(): Session {
    Session("", Defined(JStr("")), [], 0, 0, false, 0, 0)
  }

  /** What the browser delivers to the client. */
  datatype Event =
    | MakeViewerCalled(imageUriIn: Option<string>)  // the page calls the public `make_viewer`
    | ViewerOpened(source: Json)                    // 'open' or 'failed-open' of an unauthenticated viewer
    | ButtonClicked(index: nat)                     // a click on the index-th auth box button
    | PollTimerFired(windowClosed: bool)            // one login-window poll timer ticks
    | MessageReceived(data: Json)                   // a message event reaches the window
    | AuthorizedInfoLoaded(info: Json)              // an authorized fetch succeeds
    | AuthorizedInfoFailed(error: string)           // an authorized fetch fails
    | RetryTimerFired                               // a retry timer expires

  /** What the client asks of the browser. */
  datatype Output =
    | OpenViewer(tileSource: string)                           // unauthenticated viewer on this URL
    | OpenLoginWindow(url: string, windowName: string, pollEveryMs: nat)
    | LoadTokenFrame(url: string)                              // the hidden frame's new address
    | FetchInfo(url: string, authorization: Json)              // uncached GET with this Authorization header
    | ShowAuthorizedViewer(info: Json)                         // viewer on the authorized document
    | TokenRefused(explanation: Json)                          // logged failure to obtain a token
    | ScheduleRetry(error: string, delayMs: nat)               // logged failure, then a timer

  datatype Transition = Transition(next: Session, outputs: seq<Output>)

  predicate IsLoginWindow(o: Output) { o.OpenLoginWindow? }
  predicate IsTokenRequest(o: Output) { o.LoadTokenFrame? }
  predicate IsAuthorizedFetch(o: Output) { o.FetchInfo? }
  predicate IsAuthorizedView(o: Output) { o.ShowAuthorizedViewer? }
  predicate IsRetry(o: Output) { o.ScheduleRetry? }

  /** The number of outputs satisfying `f`. */
  function Count(outputs: seq<Output>, f: Output -> bool): nat {
    if outputs == [] then 0
    else (if f(outputs[0]) then 1 else 0) + Count(outputs[1..], f)
  }

  /** The number of times `h` occurs among `hs`. */
  function Occurrences(hs: seq<Handler>, h: Handler): nat {
    if hs == [] then 0
    else (if hs[0] == h then 1 else 0) + Occurrences(hs[1..], h)
  }

  lemma {:induction false} CountConcat(a: seq<Output>, b: seq<Output>, f: Output -> bool)
    ensures Count(a + b, f) == Count(a, f) + Count(b, f)
  {
    if a == [] {
      assert a + b == b;
    } else {
      assert (a + b)[0] == a[0];
      assert (a + b)[1..] == a[1..] + b;
      CountConcat(a[1..], b, f);
    }
  }

  /** The address of the unauthenticated info document for `imageUri`,
      with the clock reading as cache buster. */
  function TileSourceUrl(imageUri: string, now: int): string {
    imageUri + InfoJsonPath + CacheBusterQuery + IntToString(now)
  }

  /** `make_viewer(image_uri_in)`: remember a given image, clear the auth
      box and open an unauthenticated viewer, whose opening will be
      reported later. Called without an argument it keeps the stored
      image. */
  function MakeViewer(s: Session, imageUriIn: Option<string>, now: int): (t: Transition)
  {
    var imageUri := if imageUriIn.Some? then imageUriIn.value else s.imageUri;
    Transition(
      s.(imageUri := imageUri, authbox := [], openingViewers := s.openingViewers + 1),
      [OpenViewer(TileSourceUrl(imageUri, now))])
  }

  /** The buttons of `before` are still the first buttons of `after`, each
      with the same `data-login` (the address `do_auth` opens) and the
      same caption. */
  predicate KeepsButtons(before: seq<Button>, after: seq<Button>) {
    && |before| <= |after|
    && forall k | 0 <= k < |before| ::
         after[k].dataLogin == before[k].dataLogin && after[k].caption == before[k].caption
  }

  /** Append a button and bind `handler` to `$('#authbutton')`, which
      selects the FIRST button carrying that id, so the handler lands on the
      oldest button in the box. */
  function AppendButton(authbox: seq<Button>, dataLogin: string, caption: string, handler: Handler): (r: seq<Button>)
    ensures |r| == |authbox| + 1
    ensures r[|authbox|].dataLogin == dataLogin && r[|authbox|].caption == caption
    ensures r[0].handlers == (if authbox == [] then [] else authbox[0].handlers) + [handler]
    ensures KeepsButtons(authbox, r)
    ensures forall k | 0 < k < |authbox| :: r[k] == authbox[k]
    ensures authbox != [] ==> r[|authbox|].handlers == []
  {
    var appended := authbox + [Button(dataLogin, caption, [])];
    appended[0 := appended[0].(handlers := appended[0].handlers + [handler])]
  }

  /** `handle_open`: look for services in the document the viewer opened;
      when a login is offered, add a login button and stash the token
      service URI. A document that makes discovery throw changes nothing. */
  function HandleOpen(s: Session, source: Json): (t: Transition)
    ensures t.outputs == []
    ensures (FindAuthServices(source).Normal? && FindAuthServices(source).value.login.Some?)
      <==> |t.next.authbox| == |s.authbox| + 1
    ensures FindAuthServices(source).Normal? && FindAuthServices(source).value.login.Some? ==>
      var svc := FindAuthServices(source).value;
      && t.next.tokenServiceUri == svc.token.value
      && t.next.authbox[|s.authbox|].dataLogin == ToJsString(svc.login.value)
      && t.next.authbox[|s.authbox|].caption == JsonToString(svc.loginLabel)
      && t.next.authbox[0].handlers == (if s.authbox == [] then [] else s.authbox[0].handlers) + [DoAuth]
      && t.next == s.(tokenServiceUri := t.next.tokenServiceUri, authbox := t.next.authbox)
    ensures !(FindAuthServices(source).Normal? && FindAuthServices(source).value.login.Some?) ==> t.next == s
    ensures KeepsButtons(s.authbox, t.next.authbox)
    ensures forall k | 0 < k < |s.authbox| :: t.next.authbox[k] == s.authbox[k]
    ensures s.authbox != [] && |t.next.authbox| == |s.authbox| + 1 ==> t.next.authbox[|s.authbox|].handlers == []
  {
    match FindAuthServices(source)
    case ThrowTypeError => Transition(s, [])
    case Normal(svc) =>
      if svc.login.Some? then
        var box := AppendButton(s.authbox, ToJsString(svc.login.value), JsonToString(svc.loginLabel), DoAuth);
        Transition(s.(authbox := box, tokenServiceUri := svc.token.value), [])
      else
        Transition(s, [])
  }

  /** One click handler. `do_auth` opens the login window at the
      button's `data-login` and starts a poll timer; the logout handler
      reopens the unauthenticated viewer and never touches the logout
      service. */
  function RunHandler(s: Session, dataLogin: string, h: Handler, now: int): Transition {
    match h
    case DoAuth =>
      Transition(s.(pollTimers := s.pollTimers + 1),
                 [OpenLoginWindow(dataLogin, LoginWindowName, PollIntervalMs)])
    case Reopen => MakeViewer(s, None, now)
  }

  /** The outputs a click may produce on a button with this `data-login`. */
  predicate IsClickOutput(o: Output, s: Session, dataLogin: string, now: int) {
    o == OpenLoginWindow(dataLogin, LoginWindowName, PollIntervalMs)
    || o == OpenViewer(TileSourceUrl(s.imageUri, now))
  }

  /** A click runs every handler bound to the button in binding order; the
      handlers are collected when the click is dispatched, so a handler
      that clears the auth box does not stop the later ones. */
  function RunHandlers(s: Session, dataLogin: string, hs: seq<Handler>, now: int): (t: Transition)
    ensures t.next.pollTimers == s.pollTimers + Occurrences(hs, DoAuth)
    ensures Count(t.outputs, IsLoginWindow) == Occurrences(hs, DoAuth)
    ensures forall k | 0 <= k < |t.outputs| :: IsClickOutput(t.outputs[k], s, dataLogin, now)
    ensures t.next.imageUri == s.imageUri && t.next.tokenServiceUri == s.tokenServiceUri
    ensures t.next.listening == s.listening && t.next.pendingFetches == s.pendingFetches
    ensures t.next.retryTimers == s.retryTimers
    ensures t.next.authbox == s.authbox || t.next.authbox == []
    decreases |hs|
  {
    if hs == [] then Transition(s, [])
    else
      var first := RunHandler(s, dataLogin, hs[0], now);
      var rest := RunHandlers(first.next, dataLogin, hs[1..], now);
      CountConcat(first.outputs, rest.outputs, IsLoginWindow);
      Transition(rest.next, first.outputs + rest.outputs)
  }

  /** `request_access_token`: register the message listener (registering
      the same listener again has no effect) and point the hidden frame at
      the stashed token service. */
  function RequestAccessToken(s: Session): (t: Transition)
  {
    Transition(s.(listening := true), [LoadTokenFrame(ToJsString(s.tokenServiceUri) + TokenMessageQuery)])
  }

  /** `make_authorized_viewer(token)`: clear the auth box and fetch the
      info document again, uncached, presenting the token. */
  function MakeAuthorizedViewer(s: Session, token: Json): (t: Transition)
  {
    Transition(s.(authbox := [], pendingFetches := s.pendingFetches + 1),
               [FetchInfo(s.imageUri + InfoJsonPath, token)])
  }

  /** `receive_message`: a granted token leads to the authorized fetch; a
      refusal is reported and the unauthenticated viewer reopened. A
      payload that makes the handler throw changes nothing. */
  function OnMessage(s: Session, data: Json, now: int): (t: Transition)
  {
    match ReceiveMessage(data)
    case ThrowTypeError => Transition(s, [])
    case Normal(Granted(token)) => MakeAuthorizedViewer(s, token)
    case Normal(Refused(explanation)) =>
      var reopened := MakeViewer(s, None, now);
      Transition(reopened.next, [TokenRefused(explanation)] + reopened.outputs)
  }

  /** `make_authorized_viewer_got_info`: look for a logout service in the
      authorized document; when there is one, add a logout button; then
      show the authorized document. A document that makes discovery throw
      stops the handler before either. */
  function GotInfo(s: Session, info: Json): (t: Transition)
    ensures FindAuthServices(info).ThrowTypeError? ==> t == Transition(s, [])
    ensures FindAuthServices(info).Normal? ==> t.outputs == [ShowAuthorizedViewer(info)]
    ensures (FindAuthServices(info).Normal? && FindAuthServices(info).value.logout.Some?)
      <==> |t.next.authbox| == |s.authbox| + 1
    ensures FindAuthServices(info).Normal? && FindAuthServices(info).value.logout.Some? ==>
      var svc := FindAuthServices(info).value;
      && |t.next.authbox| == |s.authbox| + 1
      && t.next.authbox[|s.authbox|].dataLogin == ToJsString(svc.logout.value)
      && t.next.authbox[|s.authbox|].caption == JsonToString(svc.logoutLabel)
      && t.next.authbox[0].handlers == (if s.authbox == [] then [] else s.authbox[0].handlers) + [Reopen]
    ensures !(FindAuthServices(info).Normal? && FindAuthServices(info).value.logout.Some?) ==> t.next == s
    ensures KeepsButtons(s.authbox, t.next.authbox)
    ensures forall k | 0 < k < |s.authbox| :: t.next.authbox[k] == s.authbox[k]
    ensures s.authbox != [] && |t.next.authbox| == |s.authbox| + 1 ==> t.next.authbox[|s.authbox|].handlers == []
    ensures t.next == s.(authbox := t.next.authbox)
  {
    match FindAuthServices(info)
    case ThrowTypeError => Transition(s, [])
    case Normal(svc) =>
      var box :=
        if svc.logout.Some? then AppendButton(s.authbox, ToJsString(svc.logout.value), JsonToString(svc.logoutLabel), Reopen)
        else s.authbox;
      Transition(s.(authbox := box), [ShowAuthorizedViewer(info)])
  }

  /** `authorization_failure`: report the error and start one timer that
      will reopen the unauthenticated viewer. */
  function AuthorizationFailure(s: Session, error: string): (t: Transition)
  {
    Transition(s.(retryTimers := s.retryTimers + 1), [ScheduleRetry(error, RetryDelayMs)])
  }

  /** Whether the browser has something outstanding that `e` answers: a
      viewer still opening, a button to click, a running poll timer that
      sees the window closed, a registered listener, a fetch in flight, a
      running retry timer. The page may call `make_viewer` at any time. */
  predicate Outstanding(s: Session, e: Event) {
    match e
    case MakeViewerCalled(_) => true
    case ViewerOpened(_) => s.openingViewers > 0
    case ButtonClicked(index) => index < |s.authbox|
    case PollTimerFired(windowClosed) => s.pollTimers > 0 && windowClosed
    case MessageReceived(_) => s.listening
    case AuthorizedInfoLoaded(_) => s.pendingFetches > 0
    case AuthorizedInfoFailed(_) => s.pendingFetches > 0
    case RetryTimerFired => s.retryTimers > 0
  }

  /** The client's reaction to one event at clock reading `now`: the event
      wiring of `make_viewer`, `handle_open`, the login button, the poll
      timer, the message listener, the authorized fetch and the retry timer.
      An event for which nothing is outstanding has no effect, and a button
      keeps its `data-login` and caption for as long as the auth box is not
      cleared. */
  function Step(s: Session, e: Event, now: int): (t: Transition)
    ensures !Outstanding(s, e) ==> t == Transition(s, [])
    ensures t.next.authbox == [] || KeepsButtons(s.authbox, t.next.authbox)
  {
    match e
    case MakeViewerCalled(imageUriIn) =>
      MakeViewer(s, imageUriIn, now)
    case ViewerOpened(source) =>
      if s.openingViewers == 0 then Transition(s, [])
      else HandleOpen(s.(openingViewers := s.openingViewers - 1), source)
    case ButtonClicked(index) =>
      if index < |s.authbox| then RunHandlers(s, s.authbox[index].dataLogin, s.authbox[index].handlers, now)
      else Transition(s, [])
    case PollTimerFired(windowClosed) =>
      if s.pollTimers == 0 || !windowClosed then Transition(s, [])
      else RequestAccessToken(s.(pollTimers := s.pollTimers - 1))
    case MessageReceived(data) =>
      if !s.listening then Transition(s, [])
      else OnMessage(s, data, now)
    case AuthorizedInfoLoaded(info) =>
      if s.pendingFetches == 0 then Transition(s, [])
      else GotInfo(s.(pendingFetches := s.pendingFetches - 1), info)
    case AuthorizedInfoFailed(error) =>
      if s.pendingFetches == 0 then Transition(s, [])
      else AuthorizationFailure(s.(pendingFetches := s.pendingFetches - 1), error)
    case RetryTimerFired =>
      if s.retryTimers == 0 then Transition(s, [])
      else MakeViewer(s.(retryTimers := s.retryTimers - 1), None, now)
  }

  /** An event together with the clock reading when it is handled. */
  datatype Stimulus = Stimulus(event: Event, now: int)

  /** The client's reaction to a sequence of events: the final state and
      every output, in order. */
  function Run(s: Session, trace: seq<Stimulus>): Transition {
    if trace == [] then Transition(s, [])
    else
      var before := Run(s, trace[..|trace| - 1]);
      var last := trace[|trace| - 1];
      var step := Step(before.next, last.event, last.now);
      Transition(step.next, before.outputs + step.outputs)
  }
}

=== FILE: negotiation_properties.dfy ===
/** Properties of the negotiation flow: what single events do, and what
    holds of every run of events. */
module NegotiationProperties {
  import opened Wrappers
  import opened JsValues
  import opened AuthDiscovery
  import opened TokenReply
  import opened Negotiation

  lemma {:induction false} CountNone(outputs: seq<Output>, f: Output -> bool)
    requires forall k | 0 <= k < |outputs| :: !f(outputs[k])
    ensures Count(outputs, f) == 0
  {
    if outputs != [] {
      CountNone(outputs[1..], f);
    }
  }

  /** A closed login window seen by a running poll timer stops that timer
      and requests a token exactly once, from the stashed token service. */
  lemma ClosedWindowRequestsTokenOnce(s: Session, now: int)
    requires s.pollTimers > 0
    ensures Step(s, PollTimerFired(true), now).outputs
         == [LoadTokenFrame(ToJsString(s.tokenServiceUri) + "?messageId=1234")]
    ensures Step(s, PollTimerFired(true), now).next
         == s.(pollTimers := s.pollTimers - 1, listening := true)
  {
  }

  /** A poll that finds the window still open does nothing. */
  lemma OpenWindowRequestsNothing(s: Session, now: int)
    ensures Step(s, PollTimerFired(false), now) == Transition(s, [])
  {
  }

  /** Before the first token request no listener exists, so messages are
      ignored. */
  lemma MessagesIgnoredUntilTokenRequested(s: Session, data: Json, now: int)
    requires !s.listening
    ensures Step(s, MessageReceived(data), now) == Transition(s, [])
  {
  }

  /** A message carrying `accessToken` leads to the authorized fetch with
      exactly that token, and never to the unauthenticated viewer. */
  lemma GrantedTokenIsPresented(s: Session, data: map<string, Json>, now: int)
    requires s.listening && "hasOwnProperty" !in data && "accessToken" in data
    ensures Step(s, MessageReceived(JObj(data)), now).outputs
         == [FetchInfo(s.imageUri + "/info.json", data["accessToken"])]
    ensures Step(s, MessageReceived(JObj(data)), now).next
         == s.(authbox := [], pendingFetches := s.pendingFetches + 1)
  {
  }

  /** A message without `accessToken` is reported with its description, or
      "no description in response", and the unauthenticated viewer is
      reopened on the stored image; no authorized fetch is made. */
  lemma RefusalReopensViewer(s: Session, data: Json, now: int)
    requires s.listening && CanCallHasOwn(data) && !(data.JObj? && "accessToken" in data.fields)
    ensures var explanation :=
      if data.JObj? && "description" in data.fields then data.fields["description"]
      else JStr("no description in response");
      Step(s, MessageReceived(data), now).outputs
        == [TokenRefused(explanation), OpenViewer(TileSourceUrl(s.imageUri, now))]
    ensures Step(s, MessageReceived(data), now).next
         == s.(authbox := [], openingViewers := s.openingViewers + 1)
  {
  }

  /** A failed authorized fetch reports the error and schedules exactly one
      reopening of the viewer, 3000 ms later; it reopens nothing itself. */
  lemma FailureSchedulesOneRetry(s: Session, error: string, now: int)
    requires s.pendingFetches > 0
    ensures Step(s, AuthorizedInfoFailed(error), now).outputs == [ScheduleRetry(error, 3000)]
    ensures Step(s, AuthorizedInfoFailed(error), now).next
         == s.(pendingFetches := s.pendingFetches - 1, retryTimers := s.retryTimers + 1)
  {
  }

  /** When a retry timer expires, the unauthenticated viewer is reopened
      once, on the stored image. */
  lemma RetryReopensViewerOnce(s: Session, now: int)
    requires s.retryTimers > 0
    ensures Step(s, RetryTimerFired, now).outputs == [OpenViewer(TileSourceUrl(s.imageUri, now))]
    ensures Step(s, RetryTimerFired, now).next
         == s.(retryTimers := s.retryTimers - 1, authbox := [], openingViewers := s.openingViewers + 1)
  {
  }

  /** `make_viewer()` without an argument keeps the stored image. */
  lemma MakeViewerWithoutArgumentKeepsImage(s: Session, now: int)
    ensures Step(s, MakeViewerCalled(None), now).next.imageUri == s.imageUri
    ensures Step(s, MakeViewerCalled(None), now).outputs == [OpenViewer(TileSourceUrl(s.imageUri, now))]
  {
  }

  /** `make_viewer` starts over: when the viewer it opens offers a login,
      the auth box holds exactly the new login button, whatever it held
      before, and the token service is the one offered with it. */
  lemma FreshViewerOffersOneButton(s: Session, imageUriIn: Option<string>, source: Json, now: int, later: int)
    requires FindAuthServices(source).Normal? && FindAuthServices(source).value.login.Some?
    ensures var svc := FindAuthServices(source).value;
      var made := Step(s, MakeViewerCalled(imageUriIn), now);
      var offered := Step(made.next, ViewerOpened(source), later);
      && offered.next.authbox == [Button(ToJsString(svc.login.value), JsonToString(svc.loginLabel), [DoAuth])]
      && offered.next.tokenServiceUri == svc.token.value
      && offered.outputs == []
  {
    var svc := FindAuthServices(source).value;
    var made := Step(s, MakeViewerCalled(imageUriIn), now);
    assert made.next.authbox == [] && made.next.openingViewers > 0;
    var box := AppendButton([], ToJsString(svc.login.value), JsonToString(svc.loginLabel), DoAuth);
    assert box[0].handlers == [DoAuth];
  }

  /** Clicking a button that carries only the logout handler only reopens
      the unauthenticated viewer: no window is opened and nothing is
      requested from the logout service or any other. A logout button can
      also carry `do_auth` when a stale viewer reports opening after it was
      added; `Scenarios.StaleViewerOpensLogoutAsLogin` shows the run. */
  lemma LogoutClickOnlyReopensViewer(s: Session, index: nat, now: int)
    requires index < |s.authbox|
    requires forall k | 0 <= k < |s.authbox[index].handlers| :: s.authbox[index].handlers[k] == Reopen
    ensures var t := Step(s, ButtonClicked(index), now);
      forall k | 0 <= k < |t.outputs| :: t.outputs[k] == OpenViewer(TileSourceUrl(s.imageUri, now))
    ensures Step(s, ButtonClicked(index), now).next.pollTimers == s.pollTimers
    ensures var hs := s.authbox[index].handlers;
      var t := Step(s, ButtonClicked(index), now);
      |hs| > 0 ==>
        && t.next.authbox == []
        && t.next.openingViewers == s.openingViewers + |hs|
        && t.outputs == seq(|hs|, _ => OpenViewer(TileSourceUrl(s.imageUri, now)))
  {
    var hs := s.authbox[index].handlers;
    NoDoAuth(hs);
    if |hs| > 0 {
      ReopenHandlers(s, s.authbox[index].dataLogin, hs, now);
    }
  }

  /** Running only logout handlers: each one reopens the viewer on the
      stored image, and the auth box ends up empty. */
  lemma {:induction false} ReopenHandlers(s: Session, dataLogin: string, hs: seq<Handler>, now: int)
    requires |hs| > 0
    requires forall k | 0 <= k < |hs| :: hs[k] == Reopen
    ensures var t := RunHandlers(s, dataLogin, hs, now);
      && t.next.authbox == []
      && t.next.openingViewers == s.openingViewers + |hs|
      && t.next.imageUri == s.imageUri
      && t.outputs == seq(|hs|, _ => OpenViewer(TileSourceUrl(s.imageUri, now)))
    decreases |hs|
  {
    var first := RunHandler(s, dataLogin, hs[0], now);
    if |hs| > 1 {
      ReopenHandlers(first.next, dataLogin, hs[1..], now);
      var rest := RunHandlers(first.next, dataLogin, hs[1..], now);
      assert first.outputs + rest.outputs == seq(|hs|, _ => OpenViewer(TileSourceUrl(s.imageUri, now)));
    } else {
      assert hs[1..] == [];
      assert first.outputs + [] == seq(|hs|, _ => OpenViewer(TileSourceUrl(s.imageUri, now)));
    }
  }

  lemma {:induction false} NoDoAuth(hs: seq<Handler>)
    requires forall k | 0 <= k < |hs| :: hs[k] == Reopen
    ensures Occurrences(hs, DoAuth) == 0
  {
    if hs != [] {
      NoDoAuth(hs[1..]);
    }
  }

  lemma {:induction false} CountPositive(outputs: seq<Output>, f: Output -> bool, k: nat)
    requires k < |outputs| && f(outputs[k])
    ensures Count(outputs, f) > 0
  {
    if k > 0 {
      CountPositive(outputs[1..], f, k - 1);
    }
  }

  /** `token_service_uri` changes only when a login button is offered, and
      then to the token service found with it. */
  lemma TokenServiceChangesOnlyWithLoginOffer(s: Session, e: Event, now: int)
    ensures var t := Step(s, e, now);
      t.next.tokenServiceUri != s.tokenServiceUri ==>
        && e.ViewerOpened?
        && FindAuthServices(e.source).Normal? && FindAuthServices(e.source).value.login.Some?
        && |t.next.authbox| == |s.authbox| + 1
        && t.next.tokenServiceUri == FindAuthServices(e.source).value.token.value
  {
  }

  /** Offering the login twice without clearing the auth box binds
      `do_auth` twice to the first button, and the second button gets no
      handler; one click on the first button then opens the login window
      twice and starts two poll timers, each of which will request a token. */
  lemma RepeatedLoginOfferStacksHandlers(s: Session, source: Json, now: int)
    requires s.authbox == [] && s.openingViewers >= 2
    ensures var once := Step(s, ViewerOpened(source), now);
      var twice := Step(once.next, ViewerOpened(source), now);
      FindAuthServices(source).Normal? && FindAuthServices(source).value.login.Some? ==>
      && |twice.next.authbox| == 2
      && twice.next.authbox[0].handlers == [DoAuth, DoAuth]
      && twice.next.authbox[1].handlers == []
      && Step(twice.next, ButtonClicked(0), now).next.pollTimers == s.pollTimers + 2
  {
    if FindAuthServices(source).Normal? && FindAuthServices(source).value.login.Some? {
      var once := Step(s, ViewerOpened(source), now);
      assert once.next.authbox[0].handlers == [DoAuth];
      assert Occurrences([DoAuth, DoAuth], DoAuth) == 2 by {
        assert [DoAuth, DoAuth][1..] == [DoAuth];
        assert [DoAuth][1..] == [];
      }
    }
  }

  /** Per event: token requests and login windows balance the count of
      running poll timers. */
  lemma StepPollAccounting(s: Session, e: Event, now: int)
    ensures var t := Step(s, e, now);
      Count(t.outputs, IsTokenRequest) + t.next.pollTimers == s.pollTimers + Count(t.outputs, IsLoginWindow)
  {
    var t := Step(s, e, now);
    match e
    case ButtonClicked(index) =>
      if index < |s.authbox| {
        forall k | 0 <= k < |t.outputs|
          ensures !IsTokenRequest(t.outputs[k])
        {
          assert IsClickOutput(t.outputs[k], s, s.authbox[index].dataLogin, now);
        }
        CountNone(t.outputs, IsTokenRequest);
      }
    case MessageReceived(data) =>
      assert forall k | 0 <= k < |t.outputs| :: !IsTokenRequest(t.outputs[k]) && !IsLoginWindow(t.outputs[k]);
      CountNone(t.outputs, IsTokenRequest);
      CountNone(t.outputs, IsLoginWindow);
    case _ =>
  }

  /** Over any run, every token request is paid for by a login window:
      requests plus still-running poll timers equal the timers running at the
      start plus the windows opened. One window close therefore triggers at
      most one token request per poll timer. */
  lemma {:induction false} PollAccounting(s: Session, trace: seq<Stimulus>)
    ensures var t := Run(s, trace);
      Count(t.outputs, IsTokenRequest) + t.next.pollTimers == s.pollTimers + Count(t.outputs, IsLoginWindow)
  {
    if trace != [] {
      var before := Run(s, trace[..|trace| - 1]);
      var last := trace[|trace| - 1];
      var step := Step(before.next, last.event, last.now);
      PollAccounting(s, trace[..|trace| - 1]);
      StepPollAccounting(before.next, last.event, last.now);
      CountConcat(before.outputs, step.outputs, IsTokenRequest);
      CountConcat(before.outputs, step.outputs, IsLoginWindow);
    }
  }

  /** From page load, the client never requests more tokens than it opened
      login windows. */
  lemma TokenRequestsBoundedByLoginWindows(trace: seq<Stimulus>)
    ensures Count(Run(Initial(), trace).outputs, IsTokenRequest)
         <= Count(Run(Initial(), trace).outputs, IsLoginWindow)
  {
    PollAccounting(Initial(), trace);
  }

  /** Per event: authorized views and scheduled retries never outnumber
      the authorized fetches issued. */
  lemma StepFetchAccounting(s: Session, e: Event, now: int)
    ensures var t := Step(s, e, now);
      Count(t.outputs, IsAuthorizedView) + Count(t.outputs, IsRetry) + t.next.pendingFetches
        <= s.pendingFetches + Count(t.outputs, IsAuthorizedFetch)
  {
    var t := Step(s, e, now);
    match e
    case ButtonClicked(index) =>
      if index < |s.authbox| {
        forall k | 0 <= k < |t.outputs|
          ensures !IsAuthorizedView(t.outputs[k]) && !IsRetry(t.outputs[k])
        {
          assert IsClickOutput(t.outputs[k], s, s.authbox[index].dataLogin, now);
        }
        CountNone(t.outputs, IsAuthorizedView);
        CountNone(t.outputs, IsRetry);
      }
    case MessageReceived(data) =>
      assert forall k | 0 <= k < |t.outputs| :: !IsAuthorizedView(t.outputs[k]) && !IsRetry(t.outputs[k]);
      CountNone(t.outputs, IsAuthorizedView);
      CountNone(t.outputs, IsRetry);
    case _ =>
  }

  /** Over any run, every authorized view shown and every authorization
      failure answers an authorized fetch issued earlier (or outstanding at
      the start). */
  lemma {:induction false} FetchAccounting(s: Session, trace: seq<Stimulus>)
    ensures var t := Run(s, trace);
      Count(t.outputs, IsAuthorizedView) + Count(t.outputs, IsRetry) + t.next.pendingFetches
        <= s.pendingFetches + Count(t.outputs, IsAuthorizedFetch)
  {
    if trace != [] {
      var before := Run(s, trace[..|trace| - 1]);
      var last := trace[|trace| - 1];
      var step := Step(before.next, last.event, last.now);
      FetchAccounting(s, trace[..|trace| - 1]);
      StepFetchAccounting(before.next, last.event, last.now);
      CountConcat(before.outputs, step.outputs, IsAuthorizedView);
      CountConcat(before.outputs, step.outputs, IsRetry);
      CountConcat(before.outputs, step.outputs, IsAuthorizedFetch);
    }
  }

  /** The token a fetch presents was granted by a message. */
  predicate GrantedIn(trace: seq<Stimulus>, token: Json) {
    exists i | 0 <= i < |trace| ::
      trace[i].event.MessageReceived? && ReceiveMessage(trace[i].event.data) == Normal(Granted(token))
  }

  /** Per event: an authorized fetch is issued only on a message that
      grants a token, presents that token, and targets the stored image. */
  lemma StepFetchNeedsGrant(s: Session, e: Event, now: int, k: nat)
    requires k < |Step(s, e, now).outputs| && Step(s, e, now).outputs[k].FetchInfo?
    ensures e.MessageReceived?
    ensures ReceiveMessage(e.data) == Normal(Granted(Step(s, e, now).outputs[k].authorization))
    ensures Step(s, e, now).outputs[k].url == s.imageUri + "/info.json"
  {
  }

  /** All the authorized fetches of one step present the token its
      message grants. */
  lemma StepFetchesNeedGrant(s: Session, last: Stimulus, outputs: seq<Output>)
    requires outputs == Step(s, last.event, last.now).outputs
    ensures forall j | 0 <= j < |outputs| :: outputs[j].FetchInfo? ==>
      last.event.MessageReceived? && ReceiveMessage(last.event.data) == Normal(Granted(outputs[j].authorization))
  {
    forall j | 0 <= j < |outputs| && outputs[j].FetchInfo?
      ensures last.event.MessageReceived? && ReceiveMessage(last.event.data) == Normal(Granted(outputs[j].authorization))
    {
      StepFetchNeedsGrant(s, last.event, last.now, j);
    }
  }

  /** Every authorized fetch among `outputs` presents a token granted in
      `trace`. */
  predicate FetchesGranted(outputs: seq<Output>, trace: seq<Stimulus>) {
    forall k | 0 <= k < |outputs| :: outputs[k].FetchInfo? ==> GrantedIn(trace, outputs[k].authorization)
  }

  lemma ExtendFetchesGranted(a: seq<Output>, b: seq<Output>, prefix: seq<Stimulus>, last: Stimulus)
    requires FetchesGranted(a, prefix)
    requires forall j | 0 <= j < |b| :: b[j].FetchInfo? ==>
      last.event.MessageReceived? && ReceiveMessage(last.event.data) == Normal(Granted(b[j].authorization))
    ensures FetchesGranted(a + b, prefix + [last])
  {
    var trace := prefix + [last];
    forall k | 0 <= k < |a + b| && (a + b)[k].FetchInfo?
      ensures GrantedIn(trace, (a + b)[k].authorization)
    {
      if k < |a| {
        var i :| 0 <= i < |prefix| && prefix[i].event.MessageReceived?
          && ReceiveMessage(prefix[i].event.data) == Normal(Granted(a[k].authorization));
        assert trace[i] == prefix[i];
      } else {
        assert (a + b)[k] == b[k - |a|];
        assert trace[|prefix|] == last;
      }
    }
  }

  /** One more stimulus keeps every authorized fetch of the run backed
      by a grant. */
  lemma FetchesGrantedSnoc(s: Session, prefix: seq<Stimulus>, last: Stimulus)
    requires FetchesGranted(Run(s, prefix).outputs, prefix)
    ensures FetchesGranted(Run(s, prefix + [last]).outputs, prefix + [last])
  {
    var before := Run(s, prefix);
    var step := Step(before.next, last.event, last.now);
    assert (prefix + [last])[..|prefix|] == prefix;
    assert Run(s, prefix + [last]).outputs == before.outputs + step.outputs;
    StepFetchesNeedGrant(before.next, last, step.outputs);
    ExtendFetchesGranted(before.outputs, step.outputs, prefix, last);
  }

  /** Over any run, every authorized fetch presents a token that some
      message of the run granted. */
  lemma {:induction false} FetchesPresentGrantedTokens(s: Session, trace: seq<Stimulus>)
    ensures FetchesGranted(Run(s, trace).outputs, trace)
  {
    if trace != [] {
      var prefix, last := trace[..|trace| - 1], trace[|trace| - 1];
      assert prefix + [last] == trace;
      FetchesPresentGrantedTokens(s, prefix);
      FetchesGrantedSnoc(s, prefix, last);
    }
  }

  /** The events that leave `image_uri` alone: all but the page calling
      `make_viewer` with an image. */
  predicate KeepsImage(e: Event) {
    !(e.MakeViewerCalled? && e.imageUriIn.Some?)
  }

  /** Every request for the info document a step makes targets the image
      the step started with. */
  predicate TargetsImage(o: Output, imageUri: string) {
    (o.OpenViewer? ==> imageUri + "/info.json?t=" <= o.tileSource)
    && (o.FetchInfo? ==> o.url == imageUri + "/info.json")
  }

  lemma TileSourceUrlShape(imageUri: string, now: int)
    ensures imageUri + "/info.json?t=" <= TileSourceUrl(imageUri, now)
  {
    assert InfoJsonPath + CacheBusterQuery == "/info.json?t=";
    assert TileSourceUrl(imageUri, now) == imageUri + "/info.json?t=" + IntToString(now);
  }

  lemma StepKeepsImage(s: Session, e: Event, now: int)
    requires KeepsImage(e)
    ensures Step(s, e, now).next.imageUri == s.imageUri
    ensures forall k | 0 <= k < |Step(s, e, now).outputs| :: TargetsImage(Step(s, e, now).outputs[k], s.imageUri)
  {
    var t := Step(s, e, now);
    TileSourceUrlShape(s.imageUri, now);
    if e.ButtonClicked? && e.index < |s.authbox| {
      forall k | 0 <= k < |t.outputs|
        ensures TargetsImage(t.outputs[k], s.imageUri)
      {
        assert IsClickOutput(t.outputs[k], s, s.authbox[e.index].dataLogin, now);
      }
    }
  }

  /** Unless the page names a new image, every run keeps `image_uri`, and
      every info document it requests, unauthenticated or authorized, is
      that image's. */
  lemma {:induction false} RequestsTargetStoredImage(s: Session, trace: seq<Stimulus>)
    requires forall i | 0 <= i < |trace| :: KeepsImage(trace[i].event)
    ensures Run(s, trace).next.imageUri == s.imageUri
    ensures forall k | 0 <= k < |Run(s, trace).outputs| :: TargetsImage(Run(s, trace).outputs[k], s.imageUri)
  {
    if trace != [] {
      var prefix := trace[..|trace| - 1];
      var before := Run(s, prefix);
      var last := trace[|trace| - 1];
      var step := Step(before.next, last.event, last.now);
      RequestsTargetStoredImage(s, prefix);
      StepKeepsImage(before.next, last.event, last.now);
      var t := Run(s, trace);
      forall k | 0 <= k < |t.outputs|
        ensures TargetsImage(t.outputs[k], s.imageUri)
      {
        if k < |before.outputs| {
          assert t.outputs[k] == before.outputs[k];
        } else {
          assert t.outputs[k] == step.outputs[k - |before.outputs|];
        }
      }
    }
  }

  /** The message listener is never removed, and it exists only once a
      token has been requested. */
  lemma {:induction false} ListenerFollowsTokenRequest(s: Session, trace: seq<Stimulus>)
    ensures s.listening ==> Run(s, trace).next.listening
    ensures Run(s, trace).next.listening ==> s.listening || Count(Run(s, trace).outputs, IsTokenRequest) > 0
  {
    if trace != [] {
      var prefix := trace[..|trace| - 1];
      var before := Run(s, prefix);
      var last := trace[|trace| - 1];
      var step := Step(before.next, last.event, last.now);
      ListenerFollowsTokenRequest(s, prefix);
      CountConcat(before.outputs, step.outputs, IsTokenRequest);
      if step.next.listening && !before.next.listening {
        assert last.event.PollTimerFired?;
        assert IsTokenRequest(step.outputs[0]);
        CountPositive(step.outputs, IsTokenRequest, 0);
      }
    }
  }
}

=== FILE: scenarios.dfy ===
/** Worked examples of discovery and token replies on concrete documents. */
module Scenarios {
  import opened Wrappers
  import opened JsValues
  import opened AuthDiscovery
  import opened TokenReply
  import opened Negotiation
  import DiscoveryProperties

  function LoginUri(): string { "http://iiif.io/api/auth/0/login" }
  function TokenUri(): string { "http://iiif.io/api/auth/0/token" }

  function TokenEntry(): Json {
    JObj(map["@id" := JStr("T"), "profile" := JStr(TokenUri())])
  }

  function LogoutUri(): string { "http://iiif.io/api/auth/0/logout" }

  function LogoutEntry(): Json {
    JObj(map["@id" := JStr("O"), "profile" := JStr(LogoutUri()), "label" := JStr("Sign Out")])
  }

  function LoginEntry(nested: Option<Json>): Json {
    var base := map["@id" := JStr("L"), "profile" := JStr(LoginUri()), "label" := JStr("Sign In")];
    JObj(if nested.Some? then base["service" := nested.value] else base)
  }

  /** An empty document yields only the default labels. */
  lemma EmptyDocument()
    ensures FindAuthServices(JObj(map[])) == Normal(AuthServices(None, JStr("Login"), None, None, JStr("Logout")))
  {
  }

  /** A login service with a nested token service is offered with its
      label; no logout is found. */
  lemma LoginWithToken()
    ensures FindAuthServices(JObj(map["service" := LoginEntry(Some(TokenEntry()))]))
         == Normal(AuthServices(Some(Defined(JStr("L"))), JStr("Sign In"), Some(Defined(JStr("T"))), None, JStr("Logout")))
  {
    var entry := LoginEntry(Some(TokenEntry()));
    assert HasProfile(entry, Login);
    assert ServiceList(entry) == Normal([entry]);
    assert FirstLogin([entry]) == Some(0);
    assert ServiceList(TokenEntry()) == Normal([TokenEntry()]);
    assert HasProfile(TokenEntry(), Token);
    assert [TokenEntry()][..0] == [];
  }

  /** Without the nested token service the login is withdrawn; its label
      stays. */
  lemma LoginWithoutToken()
    ensures FindAuthServices(JObj(map["service" := LoginEntry(None)]))
         == Normal(AuthServices(None, JStr("Sign In"), None, None, JStr("Logout")))
  {
    var entry := LoginEntry(None);
    assert HasProfile(entry, Login);
    assert ServiceList(entry) == Normal([entry]);
    assert FirstLogin([entry]) == Some(0);
  }

  /** A one-element array holding the login URI matches the login profile. */
  lemma ArrayWrappedProfileMatches()
    ensures ProfileIs(Defined(JArr([JStr(LoginUri())])), Login)
  {
    DiscoveryProperties.ProfileMatches(JArr([JStr(LoginUri())]), Login);
  }

  /** A refusal with a description is reported with that description and
      the unauthenticated viewer reopens. */
  lemma RefusedWithDescription(s: Session, now: int)
    requires s.listening
    ensures ReceiveMessage(JObj(map["description" := JStr("expired")])) == Normal(Refused(JStr("expired")))
    ensures Step(s, MessageReceived(JObj(map["description" := JStr("expired")])), now).outputs
         == [TokenRefused(JStr("expired")), OpenViewer(TileSourceUrl(s.imageUri, now))]
  {
  }

  /** A `null` payload makes the message handler throw: nothing happens. */
  lemma NullMessageChangesNothing(s: Session, now: int)
    ensures Step(s, MessageReceived(JNull), now) == Transition(s, [])
  {
  }

  /** A login service whose nested service is only a logout service: the
      login is withdrawn for lack of a token, but the logout is found. */
  lemma LoginWithLogout()
    ensures FindAuthServices(JObj(map["service" := LoginEntry(Some(LogoutEntry()))]))
         == Normal(AuthServices(None, JStr("Sign In"), None, Some(Defined(JStr("O"))), JStr("Sign Out")))
  {
    var entry := LoginEntry(Some(LogoutEntry()));
    assert HasProfile(entry, Login);
    assert ServiceList(entry) == Normal([entry]);
    assert FirstLogin([entry]) == Some(0);
    assert ServiceList(LogoutEntry()) == Normal([LogoutEntry()]);
    assert HasProfile(LogoutEntry(), Logout);
    assert !HasProfile(LogoutEntry(), Token);
    assert [LogoutEntry()][..0] == [];
  }

  /** An authorized document whose `service` is `null` makes discovery
      throw in the success handler. Nothing reports the failure, so the
      fetch is consumed and the client is left with nothing to show and
      nothing scheduled. */
  lemma ThrowingAuthorizedInfoIsDeadEnd(s: Session, now: int)
    requires s.authbox == [] && s.pendingFetches == 1
    requires s.openingViewers == 0 && s.pollTimers == 0 && s.retryTimers == 0
    ensures var t := Step(s, AuthorizedInfoLoaded(JObj(map["service" := JNull])), now);
      && t == Transition(s.(pendingFetches := 0), [])
      && forall e: Event :: e.MakeViewerCalled? || e.MessageReceived? || !Outstanding(t.next, e)
  {
  }

  /** The page calls `make_viewer` twice, so two unauthenticated viewers
      are opening. The first one offers the login; the user logs in, the
      token is granted and the authorized document adds its logout button.
      Then the second, stale viewer reports opening: `handle_open` binds
      `do_auth` to the first `#authbutton`, which is now the logout button,
      and a click on it opens the logout service as the login window. */
  function StaleOpenTrace(): seq<Stimulus> {
    var offer := JObj(map["service" := LoginEntry(Some(TokenEntry()))]);
    var authorized := JObj(map["service" := LoginEntry(Some(LogoutEntry()))]);
    [ Stimulus(MakeViewerCalled(Some("I")), 0),
      Stimulus(MakeViewerCalled(None), 0),
      Stimulus(ViewerOpened(offer), 0),
      Stimulus(ButtonClicked(0), 0),
      Stimulus(PollTimerFired(true), 0),
      Stimulus(MessageReceived(JObj(map["accessToken" := JStr("A")])), 0),
      Stimulus(AuthorizedInfoLoaded(authorized), 0),
      Stimulus(ViewerOpened(offer), 0),
      Stimulus(ButtonClicked(0), 0) ]
  }

  /** The sessions the trace passes through, one per stimulus. */
  function StaleOpenStates(): seq<Session> {
    var login := Button("L", "Sign In", [DoAuth]);
    var s1 := Session("I", Defined(JStr("")), [], 1, 0, false, 0, 0);
    var s3 := Session("I", Defined(JStr("T")), [login], 1, 0, false, 0, 0);
    var s5 := s3.(listening := true);
    var s7 := s5.(authbox := [Button("O", "Sign Out", [Reopen])]);
    [ Initial(), s1, s1.(openingViewers := 2), s3, s3.(pollTimers := 1), s5,
      s5.(authbox := [], pendingFetches := 1), s7,
      s7.(authbox := [Button("O", "Sign Out", [Reopen, DoAuth]), Button("L", "Sign In", [])], openingViewers := 0) ]
  }

  /** The first viewer offers the login: one button carrying `do_auth`. */
  lemma StaleOpenOffer()
    ensures Step(StaleOpenStates()[2], StaleOpenTrace()[2].event, 0).next == StaleOpenStates()[3]
  {
    var offer := JObj(map["service" := LoginEntry(Some(TokenEntry()))]);
    LoginWithToken();
    assert StaleOpenTrace()[2].event == ViewerOpened(offer);
    var box := AppendButton([], "L", "Sign In", DoAuth);
    assert box[0].handlers == [DoAuth];
    assert box == [Button("L", "Sign In", [DoAuth])];
    assert HandleOpen(StaleOpenStates()[2].(openingViewers := 1), offer).next == StaleOpenStates()[3];
  }

  /** The authorized document adds the logout button. */
  lemma StaleOpenAuthorized()
    ensures Step(StaleOpenStates()[6], StaleOpenTrace()[6].event, 0).next == StaleOpenStates()[7]
  {
    var authorized := JObj(map["service" := LoginEntry(Some(LogoutEntry()))]);
    LoginWithLogout();
    assert StaleOpenTrace()[6].event == AuthorizedInfoLoaded(authorized);
    var box := AppendButton([], "O", "Sign Out", Reopen);
    assert box[0].handlers == [Reopen];
    assert box == [Button("O", "Sign Out", [Reopen])];
    assert GotInfo(StaleOpenStates()[6].(pendingFetches := 0), authorized).next == StaleOpenStates()[7];
  }

  /** The stale viewer binds `do_auth` to the logout button. */
  lemma StaleOpenRebinds()
    ensures Step(StaleOpenStates()[7], StaleOpenTrace()[7].event, 0).next == StaleOpenStates()[8]
  {
    var offer := JObj(map["service" := LoginEntry(Some(TokenEntry()))]);
    LoginWithToken();
    assert StaleOpenTrace()[7].event == ViewerOpened(offer);
    var box := AppendButton([Button("O", "Sign Out", [Reopen])], "L", "Sign In", DoAuth);
    assert box[0].handlers == [Reopen, DoAuth];
    assert box == [Button("O", "Sign Out", [Reopen, DoAuth]), Button("L", "Sign In", [])];
    assert HandleOpen(StaleOpenStates()[7].(openingViewers := 0), offer).next == StaleOpenStates()[8];
  }

  /** Each stimulus of the trace takes the session to the next state. */
  lemma StaleOpenStep(k: nat)
    requires k < 8
    ensures Step(StaleOpenStates()[k], StaleOpenTrace()[k].event, 0).next == StaleOpenStates()[k + 1]
  {
    if k == 2 {
      StaleOpenOffer();
    } else if k == 6 {
      StaleOpenAuthorized();
    } else if k == 7 {
      StaleOpenRebinds();
    }
  }

  /** The last click reopens the viewer and opens the logout address as
      the login window. */
  lemma StaleOpenClick()
    ensures Step(StaleOpenStates()[8], StaleOpenTrace()[8].event, 0).outputs
         == [OpenViewer(TileSourceUrl("I", 0)), OpenLoginWindow("O", LoginWindowName, PollIntervalMs)]
  {
  }

  /** Running a trace extended by one stimulus is one more step. */
  lemma RunSnoc(s: Session, trace: seq<Stimulus>, x: Stimulus)
    ensures var before := Run(s, trace);
      var step := Step(before.next, x.event, x.now);
      Run(s, trace + [x]) == Transition(step.next, before.outputs + step.outputs)
  {
    assert (trace + [x])[..|trace|] == trace;
  }

  /** Running the first `n` stimuli of the trace ends in the n-th state. */
  lemma {:induction false} StaleOpenPrefix(n: nat)
    requires n <= 8
    ensures Run(Initial(), StaleOpenTrace()[..n]).next == StaleOpenStates()[n]
  {
    if n > 0 {
      var trace := StaleOpenTrace();
      StaleOpenPrefix(n - 1);
      StaleOpenStep(n - 1);
      assert trace[..n] == trace[..n - 1] + [trace[n - 1]];
      RunSnoc(Initial(), trace[..n - 1], trace[n - 1]);
    }
  }

  /** After the trace above, the last click opens the logout service's
      address as the login window, besides reopening the viewer. */
  lemma StaleViewerOpensLogoutAsLogin()
    ensures OpenLoginWindow("O", LoginWindowName, PollIntervalMs) in Run(Initial(), StaleOpenTrace()).outputs
  {
    var trace := StaleOpenTrace();
    StaleOpenPrefix(8);
    StaleOpenClick();
    var click := Step(StaleOpenStates()[8], trace[8].event, 0);
    assert trace == trace[..8] + [trace[8]];
    RunSnoc(Initial(), trace[..8], trace[8]);
    var final := Run(Initial(), trace);
    assert final.outputs[|final.outputs| - 1] == click.outputs[1];
  }
}

=== FILE: token_reply.dfy ===
/** Classification of the message the token service posts back from its
    embedded frame. */
module TokenReply {
  import opened Wrappers
  import opened JsValues

  const NoDescription: string := "no description in response"

  /** What the client makes of a message: an access token to present, or
      a refusal with the explanation it logs. */
  datatype Reply = Granted(accessToken: Json) | Refused(explanation: Json)

  /** `receive_message`'s decision on the payload `data`. A payload that
      cannot answer `hasOwnProperty` (`null`, or an object shadowing it)
      makes the handler throw. */
  function ReceiveMessage(data: Json): (r: Completion<Reply>)
    ensures r.Normal? <==> CanCallHasOwn(data)
    ensures r.Normal? ==> (r.value.Granted? <==> data.JObj? && "accessToken" in data.fields)
    ensures r.Normal? && r.value.Granted? ==> r.value.accessToken == data.fields["accessToken"]
    ensures r.Normal? && r.value.Refused? ==>
      r.value.explanation ==
        (if data.JObj? && "description" in data.fields then data.fields["description"] else JStr(NoDescription))
  {
    var hasToken :- HasOwn(data, "accessToken");
    if hasToken then Normal(Granted(data.fields["accessToken"]))
    else
      // `data` has just answered `hasOwnProperty`, so asking about
      // "description" cannot throw.
      var hasDescription := data.JObj? && "description" in data.fields;
      Normal(Refused(if hasDescription then data.fields["description"] else JStr(NoDescription)))
  }
}

=== FILE: wrappers.dfy ===
/** Optional values and script completions shared by the other modules. */
module Wrappers {

  /** A value that may be absent; used for properties a result object
      may or may not carry. */
  datatype Option<+T> = None | Some(value: T)

  /** The completion of a piece of script: it either finishes normally
      with a value or throws. The only exception the modelled code can
      raise is a TypeError, from calling `hasOwnProperty` on a value that
      does not provide it. `:-` propagates the throw, as an uncaught
      exception leaves the enclosing function. */
  datatype Completion<+T> = Normal(value: T) | ThrowTypeError {

    predicate IsFailure() {
      ThrowTypeError?
    }

    function PropagateFailure<U>(): Completion<U>
      requires ThrowTypeError?
    {
      ThrowTypeError
    }

    function Extract(): T
      requires Normal?
    {
      value
    }
  }
}
